=== FILE: README.md ===
# ba-slider interaction engine in Dafny

This project models the per-slider interaction engine of the ba-slider
before/after comparison widget, in both of its versions:

- the reactive version (`ba-slider-v-2.js`) re-reads its settings from the
  container's attributes on every event and every frame;
- the cached version (`ba-slider-v1.js`) reads them once at setup and decides
  by them which mouse listeners to attach.

For each slider the model covers:

- **settings derivation** (`getSettings`): mode, vertical mode and damping,
  with their defaults and the damping clamp to [0.01, 1];
- **target normalisation** (`updateTargets`): a client coordinate plus the
  bounding rect become a clamped percentage;
- **the listeners**: mousedown, window mouseup, slider mousemove, window
  mousemove, touchstart, touchmove, touchend and touchcancel, each a pure
  transition on the session record `{isDragging, draggingMarker, targetX,
  targetY, currentX, currentY}`;
- **one render frame**: single-pole exponential damping with an exact snap
  when both gaps are below 0.01, and the values written to the before layer,
  the handle and the knob;
- **discovery** (`initSliders`): the initialised-marker guard, and the
  MutationObserver filter that rescans iff some mutation added nodes.

Positions are Dafny `real`s, so arithmetic is exact.

Files:

- `jsmath.dfy`: `Math.max`, `Math.min` and `Math.abs`.
- `settings.dfy`: the attributes and `getSettings`.
- `geometry.dfy`: the rect and the axis-percentage conversion.
- `session.dfy`: the session record, its invariant and `updateTargets`.
- `handlers.dfy`: the event datatype and the listeners of both versions. They are told apart by `Variant = Reactive | Cached`.
- `render.dfy`: one frame, its output, and convergence over many frames.
- `versions.dfy`: runs of events against each version, how the versions relate, and the worked scenario.
- `discovery.dfy`: `initSliders`, the observer filter, and the page-level session registry.

The two versions share one `Step` and one `Render`. They differ in three places:

- the settings passed in come from the attributes at that moment (reactive) or from setup (cached);
- `DragWired` says whether the mousedown and window listeners exist at all;
- `KnobTop` says whether a frame recentres the knob.

## Model

| member | source | states |
|---|---|---|
| SliderSettings.Derive | ba-slider-v-2.js:32-38 | An absent or empty attribute gives mode `drag`, vertical `center` and damping 0.15. A present mode or vertical string is kept verbatim. Damping always ends up in [0.01, 1]: an in-range value is kept, one below is raised to 0.01, one above is lowered to 1. |
| SliderSettings.ClampDamping | ba-slider-v-2.js:36 | The result lies in [0.01, 1]. It equals the raw value when that is in range, and the nearer bound otherwise. |
| SliderSettings.OrDefault | ba-slider-v-2.js:33-34 | A present non-empty attribute wins. An absent or empty one gives the fallback. The result is never empty. |
| SliderSettings.DefaultsWhenAbsent | ba-slider-v-2.js:33-36 | With no attributes the settings are exactly (`drag`, `center`, 0.15). |
| Geometry.AxisPercent | ba-slider-v-2.js:45-47 | The percentage lies in [0,100] for every client coordinate, given a positive extent. It is 0 at or before the start and 100 at or after the end. In between it maps back exactly to the client coordinate (`Locates`). |
| Geometry.LocatesUnique | ba-slider-v-2.js:45-47 | At most one percentage locates a client coordinate, so `Locates` fully specifies the conversion. |
| Geometry.AxisPercentMonotone | ba-slider-v-2.js:45-47 | A pointer further along the axis never yields a smaller percentage. |
| SliderSession.InitialValid | ba-slider-v-2.js:24-28 | A new session (not dragging, everything at 50) satisfies the session invariant. |
| SliderSession.UpdateTargets | ba-slider-v-2.js:40-55 | targetX locates clientX in [0,100]. targetY locates clientY only when vertical mode is `move` and a knob exists; otherwise it is unchanged. Current positions and drag state are untouched, and the invariant is kept. |
| SliderSession.UpdateTargetsIdempotent | ba-slider-v-2.js:40-55 | Applying the same pointer position twice equals applying it once. |
| Handlers.OnMouseDown | ba-slider-v-2.js:103-111 | In both versions this is a no-op unless the mode is `drag`. In `drag` mode it sets isDragging and the marker, and retargets to the pointer. |
| Handlers.OnMouseUp | ba-slider-v-2.js:113-118 | A no-op when not dragging, or where the listener is not attached (cached version, non-drag setup). Otherwise it clears both isDragging and the marker, and positions are unchanged. |
| Handlers.OnSliderMouseMove | ba-slider-v-2.js:120-137 | Two independent rules. targetY follows the pointer whenever vertical mode is `move` and a knob exists, whatever the mode. targetX follows it in `hover` mode, or in `drag` mode while dragging, and is unchanged for any other mode. Drag state and current positions are untouched. |
| Handlers.OnWindowMouseMove | ba-slider-v-2.js:163-168 | Retargets whenever dragging, regardless of mode, where the listener is attached. Otherwise the session is unchanged. |
| Handlers.OnTouchStart | ba-slider-v-2.js:139-144 | In every mode it sets isDragging and the marker and retargets to the contact point. |
| Handlers.OnTouchMove | ba-slider-v-2.js:146-149 | Retargets to the contact point whether or not a drag is on. |
| Handlers.OnTouchEnd | ba-slider-v-2.js:151-154 | touchend and touchcancel clear isDragging and the marker unconditionally. Positions are unchanged. |
| Handlers.Step | ba-slider-v-2.js:156-173 | Each event reaches its listener, with that listener's outcome: mousedown starts a drag only in `drag` mode; window mouseup ends a drag where attached; the slider mousemove follows its vertical and horizontal rules; window mousemove retargets only while dragging where attached; touchstart starts a drag and retargets; touchmove retargets; touchend and touchcancel end the drag. No event moves the rendered position. Every event keeps the session invariant: positions stay in [0,100] and the marker is present iff isDragging. |
| Handlers.MouseDragsOnlyInDragMode | ba-slider-v-2.js:103-105 | Outside `drag` mode, no mouse event can set isDragging. |
| Handlers.BubbledWindowMoveIsRedundant | ba-slider-v-2.js:157-168 | For a `drag` or `hover` slider, a mouse move bubbling from the slider to the window listener changes nothing further. |
| RenderLoop.Approach | ba-slider-v-2.js:82-83 | One axis of interpolation. The new gap is (1−d) times the old one. For d in [0,1] the new position lies between the old position and the target, so there is no overshoot. |
| RenderLoop.Advance | ba-slider-v-2.js:59-83 | Only current positions move. If both gaps are below 0.01 the position snaps exactly onto the target, and a session already at rest is unchanged. Otherwise each gap shrinks by exactly (1−damping). There is no overshoot, and the invariant is kept for damping in [0,1]. |
| RenderLoop.Render | ba-slider-v-2.js:57-96 | A frame's session update is the same in both versions and depends only on the damping. The before width and handle offset show the new currentX. The knob top is currentY under `move` with a knob. Otherwise a present knob is recentred at 50 by the reactive version and not written by the cached one. |
| RenderLoop.Frames | ba-slider-v-2.js:95 | Repeated frames never change targets or drag state. A session at rest stays exactly as it is. |
| RenderLoop.GapDecay | ba-slider-v-2.js:59-83 | After k frames with damping in [0.01,1], possibly changing per frame, the position has either snapped onto the target or each gap is at most the initial gap / (1 + k/100). |
| RenderLoop.Converges | ba-slider-v-2.js:62-65 | With fixed targets and valid damping, the position reaches the target exactly within `SettleBound` frames. |
| RenderLoop.ScaledDecay | ba-slider-v-2.js:82-83 | With fixed damping d and no snap along the way, each gap after k frames is the initial gap scaled k times by (1−d). |
| RenderLoop.ScaledIsPower | ba-slider-v-2.js:82-83 | Scaling k times by e equals multiplying by e^k, so the gap after k frames is (1−d)^k times the initial gap. |
| RenderLoop.OneFrameExample | ba-slider-v-2.js:82 | Current 50, target 25 and damping 0.15 give 46.25 after one frame. |
| Versions.ReactiveRun | ba-slider-v-2.js:103-154 | Any run keeps the invariant and never moves the rendered position. |
| Versions.ReactiveLifetime | ba-slider-v-2.js:57-173 | Under any interleaving of listener calls and frames, each reading the attributes current at that moment, positions stay in [0,100] and the marker mirrors isDragging. |
| Versions.ModeSwitchStopsHoverTracking | ba-slider-v-2.js:120-137 | Once the mode attribute reads `drag` and no drag is on, a slider mouse move leaves targetX alone. Under `hover`, the same move retargets it. |
| Versions.ReactiveRunFollowsDragMode | ba-slider-v-2.js:120-137 | Settings are read at every call: after any history, once the mode attribute reads `drag` and no drag is on, the run's next slider mouse move leaves targetX alone. |
| Versions.ReactiveRunFollowsHoverMode | ba-slider-v-2.js:120-137 | After any history, once the mode attribute reads `hover`, the run's next slider mouse move retargets targetX to the pointer. |
| Versions.VersionsDivergeAfterModeSwitch | ba-slider-v1.js:27-38 | A slider set up in `hover` whose attribute is switched to `drag` ignores the next mouse move in the reactive version (targetX stays 50) and follows it in the cached one (targetX becomes 20). |
| Versions.PressScenario | ba-slider-v-2.js:103-111 | A 300-wide slider with defaults, pressed 75 from its left edge, gets targetX 25. One frame then gives currentX 46.25, and the position later rests exactly at 25. |
| Versions.Setup | ba-slider-v1.js:27-38 | The cached settings are exactly those derived from the attributes present at setup: the same defaults, verbatim mode strings and the same damping clamp. The fresh session satisfies the invariant. |
| Versions.CachedRun | ba-slider-v1.js:111-165 | The settings never change over the session's lifetime. The invariant is kept and the rendered position is never moved by events. |
| Versions.CachedIgnoresAttributeChanges | ba-slider-v1.js:28-31 | Two runs with the same rects and events give the same result, whatever the attributes did after setup. |
| Versions.VersionsAgreeInDragMode | ba-slider-v1.js:147-165 | For a `drag` slider whose attributes never change, both versions produce the same session on every run. |
| Versions.HoverMouseUpDiffers | ba-slider-v1.js:150-153 | In `hover` mode, touchstart followed by a window mouseup ends the drag in the reactive version. In the cached version it does not, because no mouseup listener is attached. |
| Versions.CachedMouseNeverDragsOutsideDragMode | ba-slider-v1.js:150-160 | A cached slider set up in a mode other than `drag` never starts dragging from mouse input, over any run. |
| Discovery.InitSliders | ba-slider-v-2.js:10-21 | Every container is marked, whatever its structure. Exactly the unmarked containers with both before and handle get a session, each once, in document order. |
| Discovery.RescanIsIdempotent | ba-slider-v-2.js:14-15 | A second pass over the marked document starts no session and changes nothing. |
| Discovery.IncompleteContainerNeverStarts | ba-slider-v-2.js:14-21 | A container missing before or handle gets no session. Because its marker is set anyway, no later pass starts one either, even after its parts appear. |
| Discovery.ShouldInit | ba-slider-v-2.js:184-192 | The observer requests a rescan iff some mutation record added at least one node. |
| Discovery.Load | ba-slider-v-2.js:177-181 | The first pass marks every container, incomplete ones included, and changes nothing else about it. Each container has a session iff it was eligible, and the registry is well formed. |
| Discovery.OnMutations | ba-slider-v-2.js:184-195 | A rescan runs iff nodes were added. Without added nodes the page is left exactly as it was, apart from the appended containers. Existing sessions are kept in order and none is duplicated. A rescan changes nothing but the markers and sets every one, and exactly the containers eligible at that point get a new session. |
| Discovery.WellformedAfterRescan | ba-slider-v-2.js:13-21 | A rescan after containers are appended starts sessions only for unmarked containers, so at most one session per container is ever started. |
| Discovery.NoNewSessionsWithoutNewContainers | ba-slider-v-2.js:184-192 | After load, a mutation batch that adds no containers starts no new session, whether or not the observer fires. |

## Left out

- DOM querying, CSS string formatting (`${x}%`), `knob.style.position` and `preventDefault` are left out, as are passive-listener options. Outputs are numbers.
- `requestAnimationFrame` scheduling and the endless self-rescheduling are not modelled directly. One frame is a pure function, and the loop is repeated application (`Frames`).
- IEEE-754 behaviour is left out; arithmetic is exact over `real`.
  - A garbage damping attribute makes `parseFloat` return NaN, which `Math.max`/`Math.min` pass through. This is not modelled.
  - The damping attribute is modelled as an already-parsed `Option<real>`, where `None` means absent or empty.
- Zero-size bounding rects are excluded by requiring positive width and height. The source divides by them.
- A touch event without `touches[0]` is not modelled. The source does not guard it, so each touch event carries one contact point.
- Listener accumulation, teardown, and DOMContentLoaded/MutationObserver mechanics are left out. Only the added-nodes filter is modelled.
- Containers are identified by document position. Mutations are modelled as containers appended at the end; removals and re-orderings are not modelled.
- The demo control panel (`ba-controls-ui-v1.js`) is left out. Its only effect, changing attributes between events, is covered by taking settings as an input to every step and frame.
- An unknown mode string is kept as-is and enables nothing; it does not fall back to `drag`.

=== FILE: discovery.dfy ===
/** Discovery of slider containers (initSliders) and the document-mutation
    filter that re-runs it. Containers are identified by their position in
    document order; a session is recorded as the position of its container. */
module Discovery {

  /** A `.ba-slider` container as discovery sees it: whether it already carries
      the initialised marker, and which of its parts are present. */
  datatype Container = Container(initialized: bool, hasBefore: bool, hasHandle: bool)

  /** A container gets a session when it is unmarked and has its before
      layer and handle. */
  predicate Eligible(c: Container) {
    !c.initialized && c.hasBefore && c.hasHandle
  }

  /** Result of one discovery pass: the document with markers set, and the
      positions of the containers that got a session, in document order. */
  datatype Scan = Scan(doc: seq<Container>, started: seq<nat>)

  predicate Increasing(xs: seq<nat>) {
    forall i, j :: 0 <= i < j < |xs| ==> xs[i] < xs[j]
  }

  predicate NoDuplicates(xs: seq<nat>) {
    forall i, j :: 0 <= i < j < |xs| ==> xs[i] != xs[j]
  }

  /** initSliders: every container is marked, whatever its structure (the
      marker is set before the structure check), and exactly the eligible
      ones get a session, each once. */
  function InitSliders(doc: seq<Container>): (r: Scan)
    ensures |r.doc| == |doc|
    ensures forall i :: 0 <= i < |doc| ==> r.doc[i] == doc[i].(initialized := true)
    ensures forall k :: 0 <= k < |r.started| ==> r.started[k] < |doc|
    ensures forall i :: 0 <= i < |doc| ==> (i in r.started <==> Eligible(doc[i]))
    ensures Increasing(r.started)
    decreases |doc|
  {
    if |doc| == 0 then Scan([], [])
    else
      var n := |doc| - 1;
      var prev := InitSliders(doc[..n]);
      var last := doc[n];
      Scan(prev.doc + [last.(initialized := true)],
           prev.started + (if Eligible(last) then [n] else []))
  }

  /** A second pass over the marked document starts nothing and changes
      nothing. */
  lemma RescanIsIdempotent(doc: seq<Container>)
    ensures InitSliders(InitSliders(doc).doc) == Scan(InitSliders(doc).doc, [])
  {
  }

  /** A structurally incomplete container is marked by the pass that first
      sees it, and so never gets a session on any later pass, even once its
      parts have been added, as long as the marker stays. */
  lemma IncompleteContainerNeverStarts(doc: seq<Container>, later: seq<Container>, i: nat)
    requires i < |doc| && i < |later|
    requires !doc[i].hasBefore || !doc[i].hasHandle
    requires later[i].initialized == InitSliders(doc).doc[i].initialized
    ensures i !in InitSliders(doc).started
    ensures i !in InitSliders(later).started
  {
  }

  /** The MutationObserver filter: rescan iff some mutation record added at
      least one node. Each element is one record's `addedNodes.length`. */
  predicate NodesAdded(addedCounts: seq<nat>) {
    exists i :: 0 <= i < |addedCounts| && addedCounts[i] > 0
  }

  /** The observer callback's loop, stopping at the first record that added
      nodes. */
  method ShouldInit(addedCounts: seq<nat>) returns (shouldInit: bool)
    ensures shouldInit <==> NodesAdded(addedCounts)
  {
    shouldInit := false;
    var i := 0;
    while i < |addedCounts|
      invariant 0 <= i <= |addedCounts|
      invariant !shouldInit
      invariant forall j :: 0 <= j < i ==> addedCounts[j] == 0
    {
      if addedCounts[i] > 0 {
        shouldInit := true;
        break;
      }
      i := i + 1;
    }
  }

  /** The document's containers and the live sessions. */
  datatype Page = Page(doc: seq<Container>, live: seq<nat>)

  /** Exactly one session per container that has one, and a session only for
      a marked container. */
  predicate Wellformed(p: Page) {
    && NoDuplicates(p.live)
    && forall k :: 0 <= k < |p.live| ==> p.live[k] < |p.doc| && p.doc[p.live[k]].initialized
  }

  /** The first pass, at load. */
  function Load(doc: seq<Container>): (p: Page)
    ensures Wellformed(p)
    // every container is marked, incomplete ones included
    ensures |p.doc| == |doc| && forall i :: 0 <= i < |doc| ==> p.doc[i] == doc[i].(initialized := true)
    ensures forall i :: 0 <= i < |doc| ==> (i in p.live <==> Eligible(doc[i]))
  {
    var scan := InitSliders(doc);
    Page(scan.doc, scan.started)
  }

  /** A batch of mutation records arrives after `appended` containers were
      added at the end of the document: a full rescan runs iff some record
      added nodes, and it starts a session for every container then
      eligible. Sessions are never lost and never duplicated. */
  function OnMutations(p: Page, appended: seq<Container>, addedCounts: seq<nat>): (r: Page)
    ensures |r.doc| == |p.doc| + |appended|
    ensures |r.live| >= |p.live| && r.live[..|p.live|] == p.live
    // without added nodes nothing runs: the document only gains the appended containers
    ensures !NodesAdded(addedCounts) ==> r == Page(p.doc + appended, p.live)
    // a rescan changes nothing but the markers, and sets every one
    ensures NodesAdded(addedCounts) ==> forall i :: 0 <= i < |r.doc| ==> r.doc[i] == (p.doc + appended)[i].(initialized := true)
    // the rescan starts a session for exactly the containers eligible then
    ensures NodesAdded(addedCounts) ==> forall i :: 0 <= i < |r.doc| ==> (i in r.live[|p.live|..] <==> Eligible((p.doc + appended)[i]))
    ensures Wellformed(p) ==> Wellformed(r)
  {
    var doc := p.doc + appended;
    if NodesAdded(addedCounts) then
      var scan := InitSliders(doc);
      var r := Page(scan.doc, p.live + scan.started);
      WellformedAfterRescan(p, appended, r);
      assert r.live[|p.live|..] == scan.started;
      r
    else
      Page(doc, p.live)
  }

  lemma WellformedAfterRescan(p: Page, appended: seq<Container>, r: Page)
    requires r == Page(InitSliders(p.doc + appended).doc, p.live + InitSliders(p.doc + appended).started)
    ensures Wellformed(p) ==> Wellformed(r)
  {
    if Wellformed(p) {
      var doc := p.doc + appended;
      var started := InitSliders(doc).started;
      forall a, b | 0 <= a < b < |r.live|
        ensures r.live[a] != r.live[b]
      {
        if b >= |p.live| && a < |p.live| {
          var i := r.live[b];
          assert i == started[b - |p.live|] && i in started;
          assert Eligible(doc[i]);
          assert r.live[a] == p.live[a];
          assert doc[p.live[a]] == p.doc[p.live[a]];
        } else if a >= |p.live| {
          assert r.live[a] == started[a - |p.live|];
          assert r.live[b] == started[b - |p.live|];
        }
      }
    }
  }

  /** Running discovery again after load, with no new containers, starts no
      new session whether or not the observer fires. */
  lemma NoNewSessionsWithoutNewContainers(doc: seq<Container>, addedCounts: seq<nat>)
    ensures OnMutations(Load(doc), [], addedCounts).live == Load(doc).live
  {
    var p := Load(doc);
    assert p.doc + [] == p.doc;
    RescanIsIdempotent(doc);
  }
}

=== FILE: geometry.dfy ===
/** Conversion of a client coordinate into a clamped percentage of the
    container's bounding box (updateTargets' arithmetic). */
module Geometry {

  import opened JsMath

  /** A bounding client rect; only a box of positive size is meaningful. */
  datatype Rect = Rect(left: real, top: real, width: real, height: real) {
    predicate Valid() { width > 0.0 && height > 0.0 }
  }

  predicate InPercentRange(p: real) { 0.0 <= p <= 100.0 }

  /** The relational meaning of a percentage `p` of a client coordinate along
      one axis starting at `origin` with length `extent`: 0 at or before the
      start, 100 at or after the end, and in between the point `p`% along
      the axis is exactly the client coordinate. */
  ghost predicate Locates(p: real, client: real, origin: real, extent: real)
    requires extent > 0.0
  {
    && (client <= origin ==> p == 0.0)
    && (client >= origin + extent ==> p == 100.0)
    && (origin < client < origin + extent ==> origin + p * extent / 100.0 == client)
  }

  /** `x = clamp(client - origin, 0, extent); (x / extent) * 100`. */
  function AxisPercent(client: real, origin: real, extent: real): (p: real)
    requires extent > 0.0
    ensures InPercentRange(p)
    ensures Locates(p, client, origin, extent)
  {
    var x := Max(0.0, Min(client - origin, extent));
    assert 0.0 <= x <= extent;
    var p := (x / extent) * 100.0;
    assert p * extent / 100.0 == x;
    assert x <= extent ==> x / extent <= 1.0;
    p
  }

  /** At most one percentage locates a client coordinate, so `Locates` is a
      complete specification of `AxisPercent`. */
  lemma LocatesUnique(p: real, q: real, client: real, origin: real, extent: real)
    requires extent > 0.0
    requires Locates(p, client, origin, extent) && Locates(q, client, origin, extent)
    ensures p == q
  {
  }

  /** Normalisation is monotone: a pointer further along the axis never gives a
      smaller percentage. */
  lemma AxisPercentMonotone(a: real, b: real, origin: real, extent: real)
    requires extent > 0.0
    requires a <= b
    ensures AxisPercent(a, origin, extent) <= AxisPercent(b, origin, extent)
  {
    var xa := Max(0.0, Min(a - origin, extent));
    var xb := Max(0.0, Min(b - origin, extent));
    assert xa <= xb;
    assert (xb - xa) / extent >= 0.0;
    assert xb / extent - xa / extent == (xb - xa) / extent;
  }
}

=== FILE: handlers.dfy ===
/** Pointer and touch handlers of one slider, for both widget versions. The
    reactive version re-derives its settings on every event; the cached
    version derives them once at setup and decides by them which mouse
    listeners are attached at all. */
module Handlers {

  import opened Geometry
  import opened SliderSettings
  import opened SliderSession

  /** `Reactive` is ba-slider-v-2.js, `Cached` is ba-slider-v1.js. */
  datatype Variant = Reactive | Cached

  /** One dispatched listener call. A physical mouse move over the slider
      dispatches `SliderMouseMove` and then, bubbling, `WindowMouseMove`. Touch
      events carry the coordinates of their first contact point. */
  datatype Event =
    | MouseDown(x: real, y: real)
    | MouseUp
    | SliderMouseMove(x: real, y: real)
    | WindowMouseMove(x: real, y: real)
    | TouchStart(x: real, y: real)
    | TouchMove(x: real, y: real)
    | TouchEnd
    | TouchCancel

  predicate IsMouseEvent(e: Event) {
    e.MouseDown? || e.MouseUp? || e.SliderMouseMove? || e.WindowMouseMove?
  }

  /** Whether the mousedown, window mouseup and window mousemove listeners are
      attached: always in the reactive version, only for a `drag` slider in the
      cached one. */
  predicate DragWired(v: Variant, cfg: Settings) {
    v == Reactive || cfg.mode == "drag"
  }

  /** Whether a mouse move over the slider moves the horizontal target. */
  predicate HorizontalGate(cfg: Settings, s: Session) {
    cfg.mode == "hover" || (cfg.mode == "drag" && s.isDragging)
  }

  function StartDrag(s: Session): Session {
    s.(isDragging := true, draggingMarker := true)
  }

  function EndDrag(s: Session): Session {
    s.(isDragging := false, draggingMarker := false)
  }

  /** handleMouseDown: a no-op unless the slider is in `drag` mode (checked in
      the handler by the reactive version, by the wiring in the cached one). */
  function OnMouseDown(v: Variant, cfg: Settings, rect: Rect, hasKnob: bool, s: Session, x: real, y: real): (r: Session)
    requires rect.Valid()
    ensures cfg.mode != "drag" ==> r == s
    ensures cfg.mode == "drag" ==> r.isDragging && r.draggingMarker
    ensures cfg.mode == "drag" ==> Retargeted(TracksVertical(cfg, hasKnob), rect, StartDrag(s), r, x, y)
  {
    if !DragWired(v, cfg) then s
    else if v == Reactive && cfg.mode != "drag" then s
    else UpdateTargets(cfg, rect, hasKnob, StartDrag(s), x, y)
  }

  /** The window's mouseup listener: ends a drag, and is a no-op otherwise or
      where it is not attached. */
  function OnMouseUp(v: Variant, cfg: Settings, s: Session): (r: Session)
    ensures (!s.isDragging || !DragWired(v, cfg)) ==> r == s
    ensures s.isDragging && DragWired(v, cfg) ==> !r.isDragging && !r.draggingMarker
    ensures r.targetX == s.targetX && r.targetY == s.targetY
    ensures r.currentX == s.currentX && r.currentY == s.currentY
  {
    if DragWired(v, cfg) && s.isDragging then EndDrag(s) else s
  }

  /** handleMouseMove on the slider: two independent rules. The vertical target
      follows the pointer whenever vertical tracking is on, whatever the mode;
      the horizontal target follows it in `hover` mode, or in `drag` mode while
      dragging, and never for any other mode string. */
  function OnSliderMouseMove(cfg: Settings, rect: Rect, hasKnob: bool, s: Session, x: real, y: real): (r: Session)
    requires rect.Valid()
    ensures r.isDragging == s.isDragging && r.draggingMarker == s.draggingMarker
    ensures r.currentX == s.currentX && r.currentY == s.currentY
    ensures TracksVertical(cfg, hasKnob) ==> Locates(r.targetY, y, rect.top, rect.height)
    ensures !TracksVertical(cfg, hasKnob) ==> r.targetY == s.targetY
    ensures HorizontalGate(cfg, s) ==> Locates(r.targetX, x, rect.left, rect.width)
    ensures !HorizontalGate(cfg, s) ==> r.targetX == s.targetX
    ensures Valid(s) ==> Valid(r)
  {
    var s1 := if TracksVertical(cfg, hasKnob)
      then s.(targetY := AxisPercent(y, rect.top, rect.height))
      else s;
    if cfg.mode == "hover" then UpdateTargets(cfg, rect, hasKnob, s1, x, y)
    else if cfg.mode == "drag" && s1.isDragging then UpdateTargets(cfg, rect, hasKnob, s1, x, y)
    else s1
  }

  /** The window's mousemove listener: follows the pointer while dragging,
      whatever the mode, where it is attached. */
  function OnWindowMouseMove(v: Variant, cfg: Settings, rect: Rect, hasKnob: bool, s: Session, x: real, y: real): (r: Session)
    requires rect.Valid()
    ensures DragWired(v, cfg) && s.isDragging ==> Retargeted(TracksVertical(cfg, hasKnob), rect, s, r, x, y)
    ensures !(DragWired(v, cfg) && s.isDragging) ==> r == s
  {
    if DragWired(v, cfg) && s.isDragging then UpdateTargets(cfg, rect, hasKnob, s, x, y) else s
  }

  /** handleTouchStart: begins tracking in every mode (touch has no hover). */
  function OnTouchStart(cfg: Settings, rect: Rect, hasKnob: bool, s: Session, x: real, y: real): (r: Session)
    requires rect.Valid()
    ensures r.isDragging && r.draggingMarker
    ensures Retargeted(TracksVertical(cfg, hasKnob), rect, StartDrag(s), r, x, y)
  {
    UpdateTargets(cfg, rect, hasKnob, StartDrag(s), x, y)
  }

  /** handleTouchMove: follows the contact point whether or not a drag is on. */
  function OnTouchMove(cfg: Settings, rect: Rect, hasKnob: bool, s: Session, x: real, y: real): (r: Session)
    requires rect.Valid()
    ensures Retargeted(TracksVertical(cfg, hasKnob), rect, s, r, x, y)
  {
    UpdateTargets(cfg, rect, hasKnob, s, x, y)
  }

  /** handleTouchEnd, also the touchcancel listener: ends tracking unconditionally. */
  function OnTouchEnd(s: Session): (r: Session)
    ensures !r.isDragging && !r.draggingMarker
    ensures r.targetX == s.targetX && r.targetY == s.targetY
    ensures r.currentX == s.currentX && r.currentY == s.currentY
  {
    EndDrag(s)
  }

  /** One listener call. `cfg` is the settings in force for that call: read
      from the attributes at that moment (reactive) or at setup (cached).
      Each event reaches the listener wired for it; events never move the
      rendered position, and every event keeps the session invariant, in
      particular the marker mirrors `isDragging`. */
  function Step(v: Variant, cfg: Settings, rect: Rect, hasKnob: bool, s: Session, e: Event): (r: Session)
    requires rect.Valid()
    // mousedown: starts a drag only in `drag` mode
    ensures e.MouseDown? && cfg.mode != "drag" ==> r == s
    ensures e.MouseDown? && cfg.mode == "drag" ==> r.isDragging && Retargeted(TracksVertical(cfg, hasKnob), rect, StartDrag(s), r, e.x, e.y)
    // window mouseup: ends a drag where attached
    ensures e.MouseUp? && DragWired(v, cfg) && s.isDragging ==> r == EndDrag(s)
    ensures e.MouseUp? && !(DragWired(v, cfg) && s.isDragging) ==> r == s
    // mousemove over the slider: the vertical and horizontal rules
    ensures e.SliderMouseMove? ==> r.isDragging == s.isDragging && r.draggingMarker == s.draggingMarker
    ensures e.SliderMouseMove? && TracksVertical(cfg, hasKnob) ==> Locates(r.targetY, e.y, rect.top, rect.height)
    ensures e.SliderMouseMove? && !TracksVertical(cfg, hasKnob) ==> r.targetY == s.targetY
    ensures e.SliderMouseMove? && HorizontalGate(cfg, s) ==> Locates(r.targetX, e.x, rect.left, rect.width)
    ensures e.SliderMouseMove? && !HorizontalGate(cfg, s) ==> r.targetX == s.targetX
    // window mousemove: follows the pointer while dragging, where attached
    ensures e.WindowMouseMove? && DragWired(v, cfg) && s.isDragging ==> Retargeted(TracksVertical(cfg, hasKnob), rect, s, r, e.x, e.y)
    ensures e.WindowMouseMove? && !(DragWired(v, cfg) && s.isDragging) ==> r == s
    // touch: start and move retarget in every mode, end and cancel stop the drag
    ensures e.TouchStart? ==> r.isDragging && Retargeted(TracksVertical(cfg, hasKnob), rect, StartDrag(s), r, e.x, e.y)
    ensures e.TouchMove? ==> Retargeted(TracksVertical(cfg, hasKnob), rect, s, r, e.x, e.y)
    ensures (e.TouchEnd? || e.TouchCancel?) ==> r == EndDrag(s)
    // invariants of every event
    ensures r.currentX == s.currentX && r.currentY == s.currentY
    ensures Valid(s) ==> Valid(r)
    ensures s.draggingMarker == s.isDragging ==> r.draggingMarker == r.isDragging
  {
    match e
    case MouseDown(x, y) => OnMouseDown(v, cfg, rect, hasKnob, s, x, y)
    case MouseUp => OnMouseUp(v, cfg, s)
    case SliderMouseMove(x, y) => OnSliderMouseMove(cfg, rect, hasKnob, s, x, y)
    case WindowMouseMove(x, y) => OnWindowMouseMove(v, cfg, rect, hasKnob, s, x, y)
    case TouchStart(x, y) => OnTouchStart(cfg, rect, hasKnob, s, x, y)
    case TouchMove(x, y) => OnTouchMove(cfg, rect, hasKnob, s, x, y)
    case TouchEnd => OnTouchEnd(s)
    case TouchCancel => OnTouchEnd(s)
  }

  /** Mouse input can start a drag only in `drag` mode: in any other mode no
      mouse event sets `isDragging`. */
  lemma MouseDragsOnlyInDragMode(v: Variant, cfg: Settings, rect: Rect, hasKnob: bool, s: Session, e: Event)
    requires rect.Valid()
    requires IsMouseEvent(e) && cfg.mode != "drag"
    ensures Step(v, cfg, rect, hasKnob, s, e).isDragging ==> s.isDragging
  {
  }

  /** A mouse move over a `drag` or `hover` slider bubbles to the window
      listener, which then changes nothing: both apply the same target. */
  lemma BubbledWindowMoveIsRedundant(v: Variant, cfg: Settings, rect: Rect, hasKnob: bool, s: Session, x: real, y: real)
    requires rect.Valid()
    requires cfg.mode == "drag" || cfg.mode == "hover"
    ensures var moved := Step(v, cfg, rect, hasKnob, s, SliderMouseMove(x, y));
            Step(v, cfg, rect, hasKnob, moved, WindowMouseMove(x, y)) == moved
  {
  }
}

=== FILE: jsmath.dfy ===
/** The three `Math` functions the widget uses, over exact reals. */
module JsMath {

  function Max(a: real, b: real): (r: real)
    ensures r >= a && r >= b && (r == a || r == b)
  {
    if a >= b then a else b
  }

  function Min(a: real, b: real): (r: real)
    ensures r <= a && r <= b && (r == a || r == b)
  {
    if a <= b then a else b
  }

  function Abs(a: real): (r: real)
    ensures r >= 0.0 && (r == a || r == -a)
  {
    if a < 0.0 then -a else a
  }
}

=== FILE: render.dfy ===
/** One frame of the damped render loop and its visual output, and what
    repeated frames do. The loop's self-rescheduling is modelled as repeated
    application of `Render`. */
module RenderLoop {

  import opened JsMath
  import opened SliderSettings
  import opened SliderSession
  import opened Handlers

  /** Below this gap on both axes a frame snaps instead of interpolating. */
  const SnapThreshold: real := 0.01

  /** What one frame writes: the before-layer width and the handle's left
      offset, and the knob's top offset when the frame writes it at all. */
  datatype Output = Output(beforeWidth: real, handleLeft: real, knobTop: Option<real>)

  datatype Frame = Frame(session: Session, output: Output)

  function GapX(s: Session): real { s.targetX - s.currentX }
  function GapY(s: Session): real { s.targetY - s.currentY }

  /** Both gaps are negligible: the frame takes the quiescent branch. */
  predicate Quiescent(s: Session) {
    Abs(GapX(s)) < SnapThreshold && Abs(GapY(s)) < SnapThreshold
  }

  /** The rendered position has reached the target exactly. */
  predicate AtRest(s: Session) {
    s.currentX == s.targetX && s.currentY == s.targetY
  }

  /** `v` lies between `a` and `b`, inclusive. */
  predicate Between(v: real, a: real, b: real) {
    (a <= b ==> a <= v <= b) && (b <= a ==> b <= v <= a)
  }

  /** The knob offset a frame writes: the current vertical position under
      vertical tracking; otherwise the reactive version recentres a present
      knob at 50% and the cached version leaves it alone. */
  function KnobTop(v: Variant, cfg: Settings, hasKnob: bool, currentY: real): Option<real> {
    if TracksVertical(cfg, hasKnob) then Some(currentY)
    else if v == Reactive && hasKnob then Some(50.0)
    else None
  }

  lemma MulNonneg(a: real, b: real)
    requires a >= 0.0 && b >= 0.0
    ensures a * b >= 0.0
  {
  }

  lemma MulLe(a: real, b: real, c: real)
    requires a <= b && c >= 0.0
    ensures a * c <= b * c
    ensures c * a <= c * b
  {
  }

  lemma StepUpBetween(current: real, target: real, d: real)
    requires 0.0 <= d <= 1.0 && current <= target
    ensures current <= current + (target - current) * d <= target
  {
  }

  lemma StepDownBetween(current: real, target: real, d: real)
    requires 0.0 <= d <= 1.0 && target <= current
    ensures target <= current + (target - current) * d <= current
  {
  }

  lemma ScaledStepBetween(current: real, target: real, d: real)
    ensures 0.0 <= d <= 1.0 ==> Between(current + (target - current) * d, current, target)
  {
    if 0.0 <= d <= 1.0 {
      if current <= target {
        StepUpBetween(current, target, d);
      }
      if target <= current {
        StepDownBetween(current, target, d);
      }
    }
  }

  /** One axis of an interpolation frame: `current += (target - current) * d`.
      The remaining gap is the old one scaled by (1 - d), and for d in [0, 1]
      the new position lies between the old one and the target. */
  function Approach(current: real, target: real, d: real): (r: real)
    ensures target - r == (1.0 - d) * (target - current)
    ensures 0.0 <= d <= 1.0 ==> Between(r, current, target)
  {
    ScaledStepBetween(current, target, d);
    current + (target - current) * d
  }

  /** The session update of one frame, which depends on the damping alone. */
  function Advance(d: real, s: Session): (r: Session)
    // only the rendered position moves
    ensures r.targetX == s.targetX && r.targetY == s.targetY
    ensures r.isDragging == s.isDragging && r.draggingMarker == s.draggingMarker
    // quiescent branch: an exact snap onto the target
    ensures Quiescent(s) ==> AtRest(r)
    ensures AtRest(s) ==> r == s
    // interpolation branch: each gap shrinks by the factor (1 - damping)
    ensures !Quiescent(s) ==> GapX(r) == (1.0 - d) * GapX(s)
    ensures !Quiescent(s) ==> GapY(r) == (1.0 - d) * GapY(s)
    // no overshoot, hence the percent range is kept
    ensures 0.0 <= d <= 1.0 ==> Between(r.currentX, s.currentX, s.targetX)
    ensures 0.0 <= d <= 1.0 ==> Between(r.currentY, s.currentY, s.targetY)
    ensures 0.0 <= d <= 1.0 && Valid(s) ==> Valid(r)
  {
    if Quiescent(s) then
      s.(currentX := s.targetX, currentY := s.targetY)
    else
      s.(currentX := Approach(s.currentX, s.targetX, d), currentY := Approach(s.currentY, s.targetY, d))
  }

  /** render(): one frame. The session part of a frame is the same in both
      versions and whatever the vertical mode or knob; the output always shows
      the position just computed. */
  function Render(v: Variant, cfg: Settings, hasKnob: bool, s: Session): (f: Frame)
    ensures f.session == Advance(cfg.damping, s)
    ensures f.output.beforeWidth == f.session.currentX && f.output.handleLeft == f.session.currentX
    ensures TracksVertical(cfg, hasKnob) ==> f.output.knobTop == Some(f.session.currentY)
    ensures v == Reactive && hasKnob && !TracksVertical(cfg, hasKnob) ==> f.output.knobTop == Some(50.0)
    ensures v == Cached && !TracksVertical(cfg, hasKnob) ==> f.output.knobTop.None?
    ensures !hasKnob ==> f.output.knobTop.None?
  {
    var next := Advance(cfg.damping, s);
    Frame(next, Output(next.currentX, next.currentX, KnobTop(v, cfg, hasKnob, next.currentY)))
  }

  /** The session after one frame per element of `cfgs`, in order; each frame
      runs with its own settings, as the reactive version reads them anew. */
  function Frames(cfgs: seq<Settings>, s: Session): (r: Session)
    ensures r.targetX == s.targetX && r.targetY == s.targetY
    ensures r.isDragging == s.isDragging && r.draggingMarker == s.draggingMarker
    ensures AtRest(s) ==> r == s
    decreases |cfgs|
  {
    if |cfgs| == 0 then s
    else Advance(cfgs[|cfgs| - 1].damping, Frames(cfgs[..|cfgs| - 1], s))
  }

  predicate AllValid(cfgs: seq<Settings>) {
    forall i :: 0 <= i < |cfgs| ==> ValidSettings(cfgs[i])
  }

  /** The weight (1 + k/100) that the gap after k frames is scaled by in
      `DecayedWithin`. */
  function Weight(k: nat): real {
    1.0 + k as real / 100.0
  }

  /** A frame with damping at least 0.01 that does not snap keeps
      `|gap| * Weight(k)` from growing when k grows by one. */
  lemma FrameShrinksWeightedGap(next: real, g: real, d: real, k: nat)
    requires MinDamping <= d <= MaxDamping
    requires next == (1.0 - d) * g
    ensures Abs(next) * Weight(k + 1) <= Abs(g) * Weight(k)
  {
    var a := Abs(g);
    var e := 1.0 - d;
    var w := Weight(k);
    if g >= 0.0 {
      MulNonneg(e, g);
    } else {
      MulNonneg(e, -g);
    }
    assert Abs(next) == e * a;
    MulLe(e, 0.99, w + 0.01);
    assert e * (w + 0.01) <= w;
    MulLe(e * (w + 0.01), w, a);
    assert Weight(k + 1) == w + 0.01;
  }

  /** One axis of `DecayStep`. */
  lemma AxisDecayStep(next: real, g: real, d: real, k: nat, bound: real)
    requires MinDamping <= d <= MaxDamping
    requires next == (1.0 - d) * g
    requires Abs(g) * Weight(k) <= bound
    ensures Abs(next) * Weight(k + 1) <= bound
  {
    FrameShrinksWeightedGap(next, g, d, k);
  }

  /** `AtRest(s)` or both gaps of `s`, weighted by (1 + k/100), are at most
      `gx` and `gy`. */
  predicate DecayedWithin(s: Session, k: nat, gx: real, gy: real) {
    || AtRest(s)
    || (Abs(GapX(s)) * Weight(k) <= gx && Abs(GapY(s)) * Weight(k) <= gy)
  }

  lemma DecayStep(d: real, p: Session, k: nat, gx: real, gy: real)
    requires MinDamping <= d <= MaxDamping
    requires DecayedWithin(p, k, gx, gy)
    ensures DecayedWithin(Advance(d, p), k + 1, gx, gy)
  {
    var r := Advance(d, p);
    if !AtRest(p) && !Quiescent(p) {
      AxisDecayStep(GapX(r), GapX(p), d, k, gx);
      AxisDecayStep(GapY(r), GapY(p), d, k, gy);
    }
  }

  /** After k frames with valid settings, either the position has snapped onto
      the target or each gap is at most the initial gap over (1 + k/100). */
  lemma {:induction false} GapDecay(cfgs: seq<Settings>, s: Session)
    requires AllValid(cfgs)
    ensures DecayedWithin(Frames(cfgs, s), |cfgs|, Abs(GapX(s)), Abs(GapY(s)))
  {
    if |cfgs| > 0 {
      var k := |cfgs| - 1;
      var prefix := cfgs[..k];
      assert AllValid(prefix);
      GapDecay(prefix, s);
      var p := Frames(prefix, s);
      assert ValidSettings(cfgs[k]);
      DecayStep(cfgs[k].damping, p, k, Abs(GapX(s)), Abs(GapY(s)));
    }
  }

  /** A frame count after which any session has come to rest exactly, given
      the targets do not move: 10000 frames per percentage point of gap. */
  function SettleBound(s: Session): nat {
    var g := Abs(GapX(s)) + Abs(GapY(s));
    (g * 10000.0).Floor + 2
  }

  /** A gap whose weighted size is bounded as in `DecayedWithin` is below the
      snap threshold once the weight exceeds 100 times the bound. */
  lemma SmallGap(a: real, w: real, g: real)
    requires a >= 0.0 && g >= 0.0
    requires a * w <= g && w >= 100.0 * g + 1.0
    ensures a < SnapThreshold
  {
  }

  lemma SettleBoundWeight(s: Session, k: nat)
    requires k + 1 >= SettleBound(s)
    ensures Weight(k) >= 100.0 * (Abs(GapX(s)) + Abs(GapY(s))) + 1.0
  {
  }

  /** A session whose gaps decayed below `gx` and `gy` at a weight above
      100 (gx + gy) + 1 snaps onto its target on the next frame. */
  lemma SnapsAfterDecay(d: real, p: Session, k: nat, gx: real, gy: real)
    requires MinDamping <= d <= MaxDamping
    requires gx >= 0.0 && gy >= 0.0
    requires DecayedWithin(p, k, gx, gy)
    requires Weight(k) >= 100.0 * (gx + gy) + 1.0
    ensures AtRest(Advance(d, p))
  {
    if !AtRest(p) {
      SmallGap(Abs(GapX(p)), Weight(k), gx + gy);
      SmallGap(Abs(GapY(p)), Weight(k), gx + gy);
      assert Quiescent(p);
    }
  }

  /** Convergence: with targets fixed and damping within [0.01, 1] on every
      frame, the rendered position snaps exactly onto the target within
      `SettleBound` frames, and stays there. */
  lemma Converges(cfgs: seq<Settings>, s: Session)
    requires AllValid(cfgs)
    requires |cfgs| >= SettleBound(s)
    ensures AtRest(Frames(cfgs, s))
    ensures Frames(cfgs, s).targetX == s.targetX
    ensures Frames(cfgs, s).targetY == s.targetY
  {
    var k := |cfgs| - 1;
    var prefix := cfgs[..k];
    assert AllValid(prefix);
    GapDecay(prefix, s);
    SettleBoundWeight(s, k);
    assert ValidSettings(cfgs[k]);
    SnapsAfterDecay(cfgs[k].damping, Frames(prefix, s), k, Abs(GapX(s)), Abs(GapY(s)));
  }

  /** No frame in the run takes the quiescent branch. */
  predicate NoSnapWithin(cfgs: seq<Settings>, s: Session)
    decreases |cfgs|
  {
    || |cfgs| == 0
    || (&& NoSnapWithin(cfgs[..|cfgs| - 1], s)
        && !Quiescent(Frames(cfgs[..|cfgs| - 1], s)))
  }

  predicate SameDamping(cfgs: seq<Settings>, d: real) {
    forall i :: 0 <= i < |cfgs| ==> cfgs[i].damping == d
  }

  function Power(b: real, n: nat): real {
    if n == 0 then 1.0 else b * Power(b, n - 1)
  }

  /** `g` scaled by `e` k times over, that is (`ScaledIsPower`) e^k * g. */
  function Scaled(e: real, g: real, k: nat): real {
    if k == 0 then g else e * Scaled(e, g, k - 1)
  }

  lemma {:induction false} ScaledIsPower(e: real, g: real, k: nat)
    ensures Scaled(e, g, k) == Power(e, k) * g
  {
    if k > 0 {
      ScaledIsPower(e, g, k - 1);
      var pw := Power(e, k - 1);
      assert e * (pw * g) == (e * pw) * g;
    }
  }

  lemma ScaledStep(d: real, p: Session, k: nat, gx: real, gy: real)
    requires !Quiescent(p)
    requires GapX(p) == Scaled(1.0 - d, gx, k) && GapY(p) == Scaled(1.0 - d, gy, k)
    ensures GapX(Advance(d, p)) == Scaled(1.0 - d, gx, k + 1)
    ensures GapY(Advance(d, p)) == Scaled(1.0 - d, gy, k + 1)
  {
  }

  /** With the damping fixed at d and no snap along the way, after k frames
      each gap is the initial gap scaled k times by (1 - d), i.e. exactly
      (1 - d)^k times the initial gap. */
  lemma {:induction false} ScaledDecay(cfgs: seq<Settings>, d: real, s: Session)
    requires SameDamping(cfgs, d)
    requires NoSnapWithin(cfgs, s)
    ensures GapX(Frames(cfgs, s)) == Scaled(1.0 - d, GapX(s), |cfgs|)
    ensures GapY(Frames(cfgs, s)) == Scaled(1.0 - d, GapY(s), |cfgs|)
  {
    if |cfgs| > 0 {
      var k := |cfgs| - 1;
      var prefix := cfgs[..k];
      assert SameDamping(prefix, d);
      ScaledDecay(prefix, d, s);
      assert cfgs[k].damping == d;
      ScaledStep(d, Frames(prefix, s), k, GapX(s), GapY(s));
    }
  }

  /** Worked example: current 50, target 25, damping 0.15 gives 46.25. */
  lemma OneFrameExample(v: Variant, hasKnob: bool)
    ensures Render(v, Settings("drag", "center", 0.15), hasKnob,
                   Session(false, false, 25.0, 50.0, 50.0, 50.0)).session.currentX == 46.25
  {
  }
}

=== FILE: session.dfy ===
/** The per-slider session record and the target update shared by every
    pointer handler (updateTargets). */
module SliderSession {

  import opened Geometry
  import opened SliderSettings

  /** `draggingMarker` is the `data-ba-dragging` attribute on the container;
      positions are percentages along each axis. */
  datatype Session = Session(
    isDragging: bool,
    draggingMarker: bool,
    targetX: real,
    targetY: real,
    currentX: real,
    currentY: real)

  /** A new session: not dragging, everything centred at 50%. */
  const Initial: Session := Session(false, false, 50.0, 50.0, 50.0, 50.0)

  /** The invariant every session keeps: all four positions are percentages
      and the styling marker is present exactly while dragging. */
  predicate Valid(s: Session) {
    && InPercentRange(s.targetX) && InPercentRange(s.targetY)
    && InPercentRange(s.currentX) && InPercentRange(s.currentY)
    && s.draggingMarker == s.isDragging
  }

  lemma InitialValid()
    ensures Valid(Initial)
  {
  }

  /** Vertical tracking happens only with `vertical-mode = move` and a knob. */
  predicate TracksVertical(cfg: Settings, hasKnob: bool) {
    cfg.verticalMode == "move" && hasKnob
  }

  /** `r` is `s` with its targets moved to the pointer at (`x`, `y`): the
      horizontal target always, the vertical one only when `vertical` holds;
      the rendered position and the drag state are untouched. */
  ghost predicate Retargeted(vertical: bool, rect: Rect, s: Session, r: Session, x: real, y: real)
    requires rect.Valid()
  {
    && Locates(r.targetX, x, rect.left, rect.width)
    && InPercentRange(r.targetX)
    && (vertical ==> Locates(r.targetY, y, rect.top, rect.height) && InPercentRange(r.targetY))
    && (!vertical ==> r.targetY == s.targetY)
    && r.currentX == s.currentX && r.currentY == s.currentY
    && r.isDragging == s.isDragging && r.draggingMarker == s.draggingMarker
  }

  /** updateTargets(clientX, clientY) against the rect measured at call time. */
  function UpdateTargets(cfg: Settings, rect: Rect, hasKnob: bool, s: Session, x: real, y: real): (r: Session)
    requires rect.Valid()
    ensures Retargeted(TracksVertical(cfg, hasKnob), rect, s, r, x, y)
    ensures Valid(s) ==> Valid(r)
  {
    var withX := s.(targetX := AxisPercent(x, rect.left, rect.width));
    if TracksVertical(cfg, hasKnob) then
      withX.(targetY := AxisPercent(y, rect.top, rect.height))
    else
      withX
  }

  /** The same pointer position applied twice changes nothing the second time. */
  lemma UpdateTargetsIdempotent(cfg: Settings, rect: Rect, hasKnob: bool, s: Session, x: real, y: real)
    requires rect.Valid()
    ensures UpdateTargets(cfg, rect, hasKnob, UpdateTargets(cfg, rect, hasKnob, s, x, y), x, y)
         == UpdateTargets(cfg, rect, hasKnob, s, x, y)
  {
  }
}

=== FILE: settings.dfy ===
/** Behavioural configuration of one slider, derived from its container's
    `data-ba-mode`, `data-ba-vertical` and `data-ba-damping` attributes. */
module SliderSettings {

  import opened JsMath

  datatype Option<T> = None | Some(value: T)

  /** The raw attribute surface as the widget reads it. A string attribute is
      `None` when absent; `Some("")` is an attribute present but empty. The
      damping attribute is given already parsed: `None` stands for an absent
      or empty attribute, both of which fall back to the default string. */
  datatype Attributes = Attributes(
    mode: Option<string>,
    vertical: Option<string>,
    damping: Option<real>)

  /** Derived settings. The mode strings are kept verbatim: only `drag` and
      `hover` (resp. `move`) have an effect anywhere, every other string is
      inert. */
  datatype Settings = Settings(mode: string, verticalMode: string, damping: real)

  const DefaultMode: string := "drag"
  const DefaultVertical: string := "center"
  const DefaultDamping: real := 0.15
  const MinDamping: real := 0.01
  const MaxDamping: real := 1.0

  /** Damping is a fraction of the gap closed per frame. */
  predicate ValidSettings(cfg: Settings) {
    MinDamping <= cfg.damping <= MaxDamping
  }

  /** `attr || fallback`: an absent or empty attribute gives the fallback. */
  function OrDefault(attr: Option<string>, fallback: string): (r: string)
    requires fallback != ""
    ensures r != ""
    ensures attr.Some? && attr.value != "" ==> r == attr.value
    ensures (attr.None? || attr.value == "") ==> r == fallback
  {
    match attr
    case None => fallback
    case Some(v) => if v == "" then fallback else v
  }

  /** `Math.max(0.01, Math.min(1, raw))`. */
  function ClampDamping(raw: real): (d: real)
    ensures MinDamping <= d <= MaxDamping
    ensures MinDamping <= raw <= MaxDamping ==> d == raw
    ensures raw < MinDamping ==> d == MinDamping
    ensures raw > MaxDamping ==> d == MaxDamping
  {
    Max(MinDamping, Min(MaxDamping, raw))
  }

  /** getSettings: defaults for absent attributes, damping clamped, never an error. */
  function Derive(attrs: Attributes): (cfg: Settings)
    ensures ValidSettings(cfg)
    ensures (attrs.mode.None? || attrs.mode.value == "") ==> cfg.mode == DefaultMode
    ensures attrs.mode.Some? && attrs.mode.value != "" ==> cfg.mode == attrs.mode.value
    ensures (attrs.vertical.None? || attrs.vertical.value == "") ==> cfg.verticalMode == DefaultVertical
    ensures attrs.vertical.Some? && attrs.vertical.value != "" ==> cfg.verticalMode == attrs.vertical.value
    ensures attrs.damping.None? ==> cfg.damping == DefaultDamping
    ensures attrs.damping.Some? && MinDamping <= attrs.damping.value <= MaxDamping ==> cfg.damping == attrs.damping.value
    ensures attrs.damping.Some? && attrs.damping.value < MinDamping ==> cfg.damping == MinDamping
    ensures attrs.damping.Some? && attrs.damping.value > MaxDamping ==> cfg.damping == MaxDamping
  {
    var raw := match attrs.damping
      case None => DefaultDamping
      case Some(d) => d;
    Settings(OrDefault(attrs.mode, DefaultMode),
             OrDefault(attrs.vertical, DefaultVertical),
             ClampDamping(raw))
  }

  /** With no attributes at all the slider drags, keeps the knob centred and
      closes 15% of the gap per frame. */
  lemma DefaultsWhenAbsent()
    ensures Derive(Attributes(None, None, None)) == Settings("drag", "center", 0.15)
  {
  }
}

=== FILE: versions.dfy ===
/** Runs of listener calls against a reactive slider (settings re-read on
    every call) and a cached one (settings read once at setup), and how the
    two versions relate. */
module Versions {

  import opened Geometry
  import opened SliderSettings
  import opened SliderSession
  import opened Handlers
  import opened RenderLoop

  /** One listener call as it reaches a slider: the container's attributes and
      bounding rect at that moment, and the event. */
  datatype Input = Input(attrs: Attributes, rect: Rect, event: Event)

  predicate ValidRects(inputs: seq<Input>) {
    forall i :: 0 <= i < |inputs| ==> inputs[i].rect.Valid()
  }

  /** The reactive version: every call derives its settings from the
      attributes current at that call. */
  function ReactiveRun(hasKnob: bool, s: Session, inputs: seq<Input>): (r: Session)
    requires ValidRects(inputs)
    ensures r.currentX == s.currentX && r.currentY == s.currentY
    ensures Valid(s) ==> Valid(r)
    decreases |inputs|
  {
    if |inputs| == 0 then s
    else
      var last := inputs[|inputs| - 1];
      Step(Reactive, Derive(last.attrs), last.rect, hasKnob, ReactiveRun(hasKnob, s, inputs[..|inputs| - 1]), last.event)
  }

  /** What happens to a reactive slider between two moments: a listener call,
      or an animation frame painted with the attributes current then. */
  datatype Happening = Listener(input: Input) | AnimationFrame(attrs: Attributes)

  predicate ValidHappenings(hs: seq<Happening>) {
    forall i :: 0 <= i < |hs| ==> (hs[i].Listener? ==> hs[i].input.rect.Valid())
  }

  /** A reactive session under any interleaving of listener calls and frames:
      positions stay percentages and the marker mirrors `isDragging`. */
  function ReactiveLifetime(hasKnob: bool, s: Session, hs: seq<Happening>): (r: Session)
    requires ValidHappenings(hs)
    ensures Valid(s) ==> Valid(r)
    decreases |hs|
  {
    if |hs| == 0 then s
    else
      var prev := ReactiveLifetime(hasKnob, s, hs[..|hs| - 1]);
      match hs[|hs| - 1]
      case Listener(i) => Step(Reactive, Derive(i.attrs), i.rect, hasKnob, prev, i.event)
      case AnimationFrame(attrs) => Render(Reactive, Derive(attrs), hasKnob, prev).session
  }

  /** A slider of the cached version: its settings as read at setup. */
  datatype CachedSlider = CachedSlider(cfg: Settings, hasKnob: bool, session: Session)

  /** Setup of the cached version: settings read once, from the attributes
      present at setup, and a fresh session. */
  function Setup(attrs: Attributes, hasKnob: bool): (c: CachedSlider)
    ensures c.cfg == Derive(attrs)
    ensures c.session == Initial && Valid(c.session) && c.hasKnob == hasKnob
  {
    CachedSlider(Derive(attrs), hasKnob, Initial)
  }

  /** The cached version: the attributes carried by the inputs are never
      consulted, and the settings never change. */
  function CachedRun(c: CachedSlider, inputs: seq<Input>): (r: CachedSlider)
    requires ValidRects(inputs)
    ensures r.cfg == c.cfg && r.hasKnob == c.hasKnob
    ensures r.session.currentX == c.session.currentX && r.session.currentY == c.session.currentY
    ensures Valid(c.session) ==> Valid(r.session)
    decreases |inputs|
  {
    if |inputs| == 0 then c
    else
      var last := inputs[|inputs| - 1];
      var prev := CachedRun(c, inputs[..|inputs| - 1]);
      prev.(session := Step(Cached, prev.cfg, last.rect, prev.hasKnob, prev.session, last.event))
  }

  /** Same rects and events, in the same order. */
  predicate SameEvents(a: seq<Input>, b: seq<Input>) {
    |a| == |b| && forall i :: 0 <= i < |a| ==> a[i].rect == b[i].rect && a[i].event == b[i].event
  }

  /** Attribute changes after setup have no effect on a cached slider. */
  lemma {:induction false} CachedIgnoresAttributeChanges(c: CachedSlider, a: seq<Input>, b: seq<Input>)
    requires ValidRects(a) && ValidRects(b)
    requires SameEvents(a, b)
    ensures CachedRun(c, a) == CachedRun(c, b)
  {
    if |a| > 0 {
      var n := |a| - 1;
      assert SameEvents(a[..n], b[..n]);
      assert ValidRects(a[..n]) && ValidRects(b[..n]);
      CachedIgnoresAttributeChanges(c, a[..n], b[..n]);
      assert a[n].rect == b[n].rect && a[n].event == b[n].event;
    }
  }

  /** Attributes that never change from their setup value. */
  predicate Unchanging(attrs: Attributes, inputs: seq<Input>) {
    forall i :: 0 <= i < |inputs| ==> inputs[i].attrs == attrs
  }

  /** For a `drag` slider whose attributes never change, the two versions
      behave identically on every run of events. */
  lemma {:induction false} VersionsAgreeInDragMode(attrs: Attributes, hasKnob: bool, s: Session, inputs: seq<Input>)
    requires ValidRects(inputs)
    requires Unchanging(attrs, inputs)
    requires Derive(attrs).mode == "drag"
    ensures ReactiveRun(hasKnob, s, inputs) == CachedRun(CachedSlider(Derive(attrs), hasKnob, s), inputs).session
  {
    if |inputs| > 0 {
      var n := |inputs| - 1;
      assert ValidRects(inputs[..n]) && Unchanging(attrs, inputs[..n]);
      VersionsAgreeInDragMode(attrs, hasKnob, s, inputs[..n]);
      assert inputs[n].attrs == attrs;
    }
  }

  /** They differ in `hover` mode: after a touch starts a drag, a window mouseup
      ends it in the reactive version; the cached version has no mouseup
      listener on a hover slider, so the drag lasts until the touch ends. */
  lemma HoverMouseUpDiffers(rect: Rect, hasKnob: bool)
    requires rect.Valid()
    ensures var attrs := Attributes(Some("hover"), None, None);
            var inputs := [Input(attrs, rect, TouchStart(0.0, 0.0)), Input(attrs, rect, MouseUp)];
            && !ReactiveRun(hasKnob, Initial, inputs).isDragging
            && CachedRun(Setup(attrs, hasKnob), inputs).session.isDragging
  {
  }

  /** A cached slider set up in any mode but `drag` never starts a drag from
      mouse input, however long the run. */
  lemma {:induction false} CachedMouseNeverDragsOutsideDragMode(c: CachedSlider, inputs: seq<Input>)
    requires ValidRects(inputs)
    requires c.cfg.mode != "drag" && !c.session.isDragging
    requires forall i :: 0 <= i < |inputs| ==> IsMouseEvent(inputs[i].event)
    ensures !CachedRun(c, inputs).session.isDragging
  {
    if |inputs| > 0 {
      var n := |inputs| - 1;
      assert ValidRects(inputs[..n]);
      CachedMouseNeverDragsOutsideDragMode(c, inputs[..n]);
      var prev := CachedRun(c, inputs[..n]);
      MouseDragsOnlyInDragMode(Cached, prev.cfg, inputs[n].rect, prev.hasKnob, prev.session, inputs[n].event);
    }
  }

  /** Mode reactivity: once the attribute says `drag`, a mouse move without a
      pointer-down no longer moves the horizontal target, although the same
      move under `hover` would have. */
  lemma ModeSwitchStopsHoverTracking(rect: Rect, hasKnob: bool, s: Session, vertical: Option<string>, damping: Option<real>, x: real, y: real)
    requires rect.Valid() && !s.isDragging
    ensures var r := Step(Reactive, Derive(Attributes(Some("drag"), vertical, damping)), rect, hasKnob, s, SliderMouseMove(x, y));
            r.targetX == s.targetX
    ensures var r := Step(Reactive, Derive(Attributes(Some("hover"), vertical, damping)), rect, hasKnob, s, SliderMouseMove(x, y));
            Locates(r.targetX, x, rect.left, rect.width)
  {
  }

  /** A reactive run reads the attributes current at its last call: after any
      history, a mouse move without a press leaves the horizontal target alone
      once the attribute says `drag`. */
  lemma ReactiveRunFollowsDragMode(hasKnob: bool, s: Session, prefix: seq<Input>, attrs: Attributes, rect: Rect, x: real, y: real)
    requires ValidRects(prefix) && rect.Valid()
    requires attrs.mode == Some("drag") && !ReactiveRun(hasKnob, s, prefix).isDragging
    ensures ReactiveRun(hasKnob, s, prefix + [Input(attrs, rect, SliderMouseMove(x, y))]).targetX == ReactiveRun(hasKnob, s, prefix).targetX
  {
  }

  /** The `hover` counterpart: after any history, a mouse move follows the
      pointer once the attribute says `hover`. */
  lemma ReactiveRunFollowsHoverMode(hasKnob: bool, s: Session, prefix: seq<Input>, attrs: Attributes, rect: Rect, x: real, y: real)
    requires ValidRects(prefix) && rect.Valid()
    requires attrs.mode == Some("hover")
    ensures Locates(ReactiveRun(hasKnob, s, prefix + [Input(attrs, rect, SliderMouseMove(x, y))]).targetX, x, rect.left, rect.width)
  {
  }

  /** When settings are read decides behaviour: a slider set up in `hover`
      mode whose attribute is switched to `drag` ignores a mouse move in the
      reactive version and follows it in the cached one. */
  lemma VersionsDivergeAfterModeSwitch(hasKnob: bool)
    ensures var hover := Attributes(Some("hover"), None, None);
            var drag := Attributes(Some("drag"), None, None);
            var inputs := [Input(drag, Rect(0.0, 0.0, 100.0, 100.0), SliderMouseMove(20.0, 10.0))];
            && ReactiveRun(hasKnob, Initial, inputs).targetX == 50.0
            && CachedRun(Setup(hover, hasKnob), inputs).session.targetX == 20.0
  {
  }

  /** The worked scenario: a 300px-wide slider with default attributes,
      pressed 75px from its left edge, targets 25%; the first frame moves the
      split from 50% to 46.25%, and it later comes to rest exactly at 25%. */
  lemma PressScenario(left: real, cfgs: seq<Settings>)
    requires AllValid(cfgs)
    ensures var attrs := Attributes(None, None, None);
            var rect := Rect(left, 0.0, 300.0, 200.0);
            var pressed := ReactiveRun(false, Initial, [Input(attrs, rect, MouseDown(left + 75.0, 10.0))]);
            && pressed.targetX == 25.0
            && Render(Reactive, Derive(attrs), false, pressed).session.currentX == 46.25
            && (|cfgs| >= SettleBound(pressed) ==> Frames(cfgs, pressed).currentX == 25.0)
  {
    var attrs := Attributes(None, None, None);
    var rect := Rect(left, 0.0, 300.0, 200.0);
    var inputs := [Input(attrs, rect, MouseDown(left + 75.0, 10.0))];
    assert inputs[..0] == [];
    var pressed := ReactiveRun(false, Initial, inputs);
    assert Derive(attrs).mode == "drag";
    assert Locates(pressed.targetX, left + 75.0, left, 300.0);
    if |cfgs| >= SettleBound(pressed) {
      Converges(cfgs, pressed);
    }
  }
}
